=== FILE: README.md ===
# mlength — a Dafny model of the duration cache

`mlength` prints the duration of media files. It asks one of two backends
for the duration: the `pymediainfo` metadata library, or the `ffprobe`
command. It caches each answer in a plain-text file under a cache
directory. The path of that file mirrors the media file's absolute path. An
entry is stale when it was modified strictly before the media file. A stale
entry is deleted and recomputed. The command line prints one line per file,
or the sum, average, maximum or minimum of the durations.

This project models the decision logic of that core:

- `paths.dfy` (`Paths`): where a media file's cache entry lives.
- `backends.dfy` (`Backends`): the `mediainfo` track scan, the checks on
  `ffprobe`'s run and output, and `parse_duration`'s fallback from one
  backend to the other. What each backend reports about a file is an input
  (`MediaFacts`).
- `text.dfy` (`Text`): `str()` of a duration, `int()` of a cache entry,
  `strip()`, and the seconds-to-milliseconds conversion of `ffprobe`'s output.
- `cache.dfy` (`Cache`): a `Host` class that holds the filesystem (files with
  their text and modification time, plus directories), a clock, and the
  record of every backend run. `read_cached_duration` is the function
  `ReadCached` on an entry's text; `write_cached_duration` and
  `cached_duration` are methods of `Host`.
- `aggregate.dfy` (`Aggregate`): `display_duration` up to float formatting,
  Python's `sum`, true division, and the first-maximum / first-minimum
  index that `max`/`min` over `enumerate` return.
- `cli.dfy` (`Cli`): `main` after option parsing. It covers the paths read
  from standard input, the lazy per-file loop, the eager aggregated report,
  and the display checks.

Things the verification brings out about the source:

- `cached_duration` recurses at most once. Its termination measure is
  "the entry exists", and the unlink before the recursive call falsifies it.
- A float duration (which `pymediainfo` can report) is written as
  `str(float)`. `int()` refuses that text when it is read back, so the next
  run fails with a `ValueError` instead of hitting the cache.
- The `avg` guard at mlength/__main__.py:108 compares the function
  `display_duration`, not the option `display`, with `["path", "all"]`. It
  never rejects. `--operation avg --display path` (or `all`) therefore dies
  on the assertion inside `display_duration` instead of printing the message
  and exiting with status 1.

Other behaviour of the code that the model keeps as written:

- With no media files, `main` prints a message and returns normally, with
  exit status 0.
- The `sum` display check runs after every duration has been resolved, so
  a failing file is reported before an invalid display is.
- Cache entries hold `str(duration)`, which is not always an integer.

## Model

| member | source | states |
|---|---|---|
| Paths.CacheEntryPath | mlength/__init__.py:29 | the entry is the cache directory followed by the absolute path's components without the root |
| Paths.CacheEntryInjective | mlength/__init__.py:29 | two absolute paths share a cache entry exactly when they are equal |
| Paths.NewMediaFile | mlength/__init__.py:23-29 | a media file's entry is its absolute path re-rooted under the cache directory, relative paths resolved against the working directory |
| Paths.DistinctFilesDistinctEntries | mlength/__init__.py:29 | media paths whose absolute paths differ, compared component by component without resolving `..` or symbolic links, get different cache entries |
| Paths.AbsoluteKeepsParts | mlength/__init__.py:29 | `absolute()` keeps an absolute path as it is and puts a relative one after the working directory; either way the result ends with the path's own components |
| Paths.Parent | mlength/__init__.py:108 | `parent` drops the last component, and the root is its own parent |
| Backends.FirstDurationIsFirst | mlength/__init__.py:48-53 | the scan yields the duration of the first track that has one, and nothing exactly when no track has one |
| Backends.MediainfoOutcomeIsFirst | mlength/__init__.py:39-55 | the library succeeds exactly when some track has a duration, and then returns the first such track's duration; otherwise it raises "no duration", also for zero tracks |
| Backends.MediainfoDuration | mlength/__init__.py:39-55 | the `for`/`break`/`else` loop succeeds exactly when some track has a duration, returns the first such track's duration, and otherwise raises "no duration" (also for zero tracks) |
| Backends.FfprobeOutcomeCases | mlength/__init__.py:57-85 | a missing `ffprobe` is its own error, and the only cause of it; a failed run and output that strips to `""` or `"N/A"` are "no duration"; printed output that is not plain decimal text (as the conversion reads it) is "bad output", and nothing else is; a successful result is always an integer |
| Backends.FfprobeFractional | mlength/__init__.py:79-85 | output `n.ddd...` with trailing whitespace yields `n * 1000` plus the first three fractional digits as milliseconds |
| Backends.FfprobeWholeSeconds | mlength/__init__.py:79-85 | output of `n` whole seconds, with trailing whitespace, yields `n * 1000` ms |
| Text.SecondsToMsWhole | mlength/__init__.py:83 | `int(float("n") * 1000)` is `n * 1000` |
| Text.SecondsToMsTruncates | mlength/__init__.py:83 | the conversion keeps the first three fractional digits and truncates the rest, never rounding |
| Text.SecondsToMsShortFraction | mlength/__init__.py:83 | one or two fractional digits count as tenths and hundredths of a second: `n.d` is `n * 1000 + 100 * d` ms, `n.de` is `n * 1000 + 100 * d + 10 * e` ms |
| Text.SecondsToMsSigned | mlength/__init__.py:83 | a leading `-` negates the converted value, a leading `+` changes nothing, and an unsigned number never converts to a negative count |
| Text.SecondsToMsNeedsADigit | mlength/__init__.py:80-83 | every text with no digit at all is refused, among them the empty string, a lone sign or point, and `N/A` |
| Text.ScanWholeDigits | mlength/__init__.py:83 | a run of digits before the point adds its decimal value to the whole seconds read so far, whatever follows |
| Backends.MediainfoFallsBackToFfprobe | mlength/__init__.py:87-93 | combined mode returns the first track's duration when the library finds one; otherwise it returns the probe's result unchanged, and both backends have run |
| Backends.CombinedFailsOnlyIfBothFail | mlength/__init__.py:87-96 | combined mode fails exactly when the library and then the probe both fail |
| Backends.FfprobeModeIgnoresTracks | mlength/__init__.py:94-96 | with `ffprobe` selected, the library's tracks do not affect the result and only the probe runs |
| Backends.InvokedLastDecides | mlength/__init__.py:87-96 | the backends run start with the selected one; the probe runs exactly when it is selected or the library raised; `parse_duration` returns the answer of the last backend run |
| Cache.Host.ParseDuration | mlength/__init__.py:87-96 | returns `parse_duration(lib)`'s result and records the backends it ran, in order |
| Text.NatToString | mlength/__init__.py:111 | `str` of a non-negative integer is a non-empty run of digits without a leading zero |
| Text.IntToString | mlength/__init__.py:111 | `str` of an integer is non-empty and starts with `-` exactly when the integer is negative |
| Text.FloatText | mlength/__init__.py:111 | `str` of a float starts with a sign or a digit and ends with a point and one digit |
| Text.DigitsValueOfNat | mlength/__init__.py:101 | the digits `str` writes denote the number |
| Text.TrimStartDropsSpaces | mlength/__init__.py:79 | removing leading whitespace leaves a suffix of the text that does not start with whitespace, and only whitespace is removed |
| Text.TrimEndDropsSpaces | mlength/__init__.py:79 | removing trailing whitespace leaves a prefix of the text that does not end with whitespace, and only whitespace is removed |
| Text.StripSpec | mlength/__init__.py:79 | `strip()` keeps a contiguous part of the text that neither starts nor ends with whitespace, removes only whitespace around it, and gives `""` exactly when the text is all whitespace |
| Text.StripUntouched | mlength/__init__.py:79 | text that neither starts nor ends with whitespace is left as it is |
| Text.StripTrailing | mlength/__init__.py:79 | `strip()` removes exactly the whitespace that follows a printed value |
| Text.ParseIntSpec | mlength/__init__.py:101 | `int()` accepts exactly stripped text that is a non-empty run of digits, possibly after one sign; blank text is refused; unsigned digits give the number they denote |
| Text.ParseIntOfIntToString | mlength/__init__.py:101 | `int(str(n)) == n` for every integer |
| Text.ParseIntOfFloatText | mlength/__init__.py:101 | `int()` refuses `str()` of every float, integral or not |
| Cache.MsTextMarksFloats | mlength/__init__.py:111 | the text written for a duration is never empty, and, in the fixed-point form the model writes floats in, holds a decimal point exactly when the duration is a float |
| Cache.ReadCachedIsInt | mlength/__init__.py:98-105 | reading an entry yields the integer `int()` parses from it, or "corrupt entry" exactly when `int()` fails; a blank entry is corrupt |
| Cache.WriteThenReadInt | mlength/__init__.py:101-111 | an integer duration written to an entry is read back unchanged |
| Cache.WriteThenReadFloat | mlength/__init__.py:101-111 | a float duration written to an entry is read back as a corrupt entry |
| Cache.Host.Exists | mlength/__init__.py:108-115 | `exists()` holds for the root on every valid host |
| Cache.Host.Touch | mlength/__init__.py:122-125 | another program's write sets the file's text and stamps it with the current time, which then advances; directories and backend runs are unchanged |
| Cache.Host.WriteCachedDuration | mlength/__init__.py:107-111 | the entry holds `str(d)`, stamped with the current time; the parent's ancestors are created only if the parent did not exist; no directory is removed |
| Cache.Host.CachedDuration | mlength/__init__.py:113-132 | absent entry: the resolver's result, written through on success; stale entry: unlinked, then the same as absent, recursion depth exactly 1; fresh entry (equal times count as fresh): the parsed entry, nothing changed and no backend run; a missing media file when the entry exists: an error |
| Cache.Host.MissThenHit | mlength/__init__.py:113-132 | after a miss, a second call returns the identical integer and runs no backend; a float result is not read back |
| Cache.Host.TouchInvalidates | mlength/__init__.py:122-128 | modifying the media file after caching makes the next call resolve afresh and rewrite the entry |
| Aggregate.DisplayDuration | mlength/__init__.py:135-166 | `path` and `all` fail their assertion exactly when no path is given; `path` shows the path itself |
| Aggregate.AllJoinsItsParts | mlength/__init__.py:156-164 | `all` is the `ms`, `s`, `m`, `human` and `path` displays of the same duration, joined in that order |
| Aggregate.Add | mlength/__main__.py:105 | Python `+` adds the values; the result is an int exactly when both operands are |
| Aggregate.SumMs | mlength/__main__.py:105 | `sum` is an int exactly when every duration is |
| Aggregate.SumIsTotal | mlength/__main__.py:105 | `sum` reports the total of all durations |
| Aggregate.Average | mlength/__main__.py:107 | the average is a float, and times the file count it gives back the sum |
| Aggregate.FirstMaxIndex | mlength/__main__.py:113 | the index holds a maximal duration and every earlier index holds a strictly smaller one |
| Aggregate.FirstMinIndex | mlength/__main__.py:120 | the index holds a minimal duration and every earlier index holds a strictly larger one |
| Aggregate.FirstMaxUnique | mlength/__main__.py:113 | only one index is the first maximum, so the choice is determined |
| Aggregate.FirstMinUnique | mlength/__main__.py:120 | only one index is the first minimum, so the choice is determined |
| Cli.Report | mlength/__main__.py:101-127 | `sum` with `path`/`all` prints its error and exits 1; `avg` with `path`/`all` raises the assertion error with no output; in every other case exactly one result line is printed |
| Cli.SumAndAvgPrintTheAggregate | mlength/__main__.py:101-111 | `sum` prints one number whose value is the total of all durations, an int exactly when every duration is; `avg` prints one float which, times the number of files, gives that total |
| Cli.ExtremesCarryTheirPath | mlength/__main__.py:112-125 | `max`/`min` print the first extreme duration together with the path of the same file |
| Cli.AvgGuardNeverRejects | mlength/__main__.py:106-111 | the `avg` guard never rejects, so `avg` with `path` or `all` ends in the assertion error instead of exit status 1 |
| Cli.ThreeFilesExample | mlength/__main__.py:101-125 | for 1000, 2000 and 3000 ms: sum 6000, average 2000.0, max the third file, min the first, `sum` with `all` exits 1 |
| Cli.Lazy | mlength/__main__.py:91-97 | without `--operation`, one line is printed per file before the first failure; the run ends normally exactly when no file fails, and otherwise raises that file's error |
| Cli.LazyPrintsInOrder | mlength/__main__.py:92-96 | the lazy lines are the per-file lines of the files, in input order |
| Cli.Eager | mlength/__main__.py:99-127 | with `--operation`, at most one line is printed; a failing file means no output at all and that file's error |
| Cli.PerFileLine | mlength/__main__.py:92-96 | every per-file line goes to standard output; `path` prints the file's path; `all` includes it |
| Cli.OkPrefix | mlength/__main__.py:87-99 | counts the results before the first failure, which stops the generator |
| Cli.LazyVersusEager | mlength/__main__.py:87-99 | when file `k` fails, the per-file loop has printed exactly the lines of files `0..k-1`; an aggregating run has printed nothing; both end with that file's error |
| Cli.MediaList | mlength/__main__.py:75-76 | a single `-` is replaced by the paths from standard input; any other argument list is used as given |
| Cli.FirstMissing | mlength/__main__.py:77-80 | finds the first path from standard input that does not exist |
| Cli.ReadMedia | mlength/__main__.py:75-80 | for a single `-`, the paths come from standard input, and the first one that does not exist is reported; otherwise the arguments are used as given |
| Cli.Resolve | mlength/__main__.py:87-90 | with `--no-cache`, a file's duration is exactly `parse_duration(lib)`, files, directories and clock are unchanged and only the backend runs are added; with the cache, it is `cached_duration`'s answer and state: when the entry is absent or stale, the resolver's result and runs, the old entry removed and, on success, `str` of the duration written with the current time, its directories created and the clock advanced; otherwise the entry's parsed value (or the missing media file's error) with nothing changed and no backend run |
| Cli.InvokedAllProbeOnly | mlength/__main__.py:87-90 | with `--lib ffprobe` and `--no-cache`, the probe runs once per resolved file and the library never runs |
| Cli.Generate | mlength/__main__.py:87-99 | the generator is pulled one file at a time and stops at the first failure; the durations kept are those of the files before it; when printing, the lines are exactly those files' lines; with `--no-cache` every result is `parse_duration` of its file, files, directories and clock are unchanged, and the backend runs are those of each resolved file in order |
| Cli.Process | mlength/__main__.py:86-127 | without `--operation`, the lines are printed lazily up to the first failure; with it, all durations are resolved before the report, and a failure prints nothing; with `--no-cache` the filesystem and clock are unchanged and the backend runs are those of each resolved file in order |
| Cli.Run | mlength/__main__.py:73-127 | a missing stdin path raises `BadParameter` before anything is resolved, and an empty list prints the message and returns normally, both with the host unchanged; otherwise as `Cli.Process`, and with `--no-cache` each file's result is `parse_duration` of that file, the filesystem and clock are unchanged and the backend runs are those of each resolved file in order |

## Left out

- Backend internals: `MediaInfo.parse` and the `ffprobe` subprocess are foreign calls. What they report is an input. Exceptions they raise other than the ones listed are not modelled, nor are bytes that fail to decode.
- Float formatting in `display_duration`: rounding to two places, `divmod` and `.2f` are floating point. A displayed number is kept as its unit and its duration.
- Text.SecondsToMs: `float()` is modelled as exact decimal arithmetic on plain decimal text. Binary rounding can differ (`1.005` s gives 1004 ms in Python, 1005 here). Exponent notation, `inf`, `nan` and underscores are reported as bad output here, while Python accepts them.
- Backends.FfprobeOutcomeCases: its "bad output" case is the modelled conversion's refusal. Python's `float()` accepts `1e3`, `inf`, `nan` and `1_0`, which are bad output here, and `int(float("inf") * 1000)` raises `OverflowError` rather than `ValueError`; neither difference is modelled.
- Text.SecondsToMsNeedsADigit: Python's `float()` accepts the digit-free `inf`, `infinity` and `nan` in any letter case; here they are refused like any other text without a digit.
- Text.SecondsToMsTruncates: the truncation is of the exact decimal value; with binary floats the product can land just below a whole millisecond and lose one.
- Backends.FfprobeFractional: the same exact decimal arithmetic, so its millisecond value can be one more than Python's.
- Text.ParseInt: `int()` also accepts underscores between digits and non-ASCII decimal digits. Here such text is a corrupt entry.
- Text.ParseIntSpec: states the language of `Text.ParseInt`, so it leaves out the underscores and non-ASCII digits as well.
- Cache.ReadCachedIsInt: for the same reason, an entry with underscores or non-ASCII digits reads as corrupt here, while `int()` accepts it.
- Text.FloatText: keeps only the first fractional digit of `str(float)` and never uses exponent notation. What matters, the decimal point that `int()` refuses, is kept.
- Cache.MsTextMarksFloats: Python writes very large or very small floats in exponent form (`1e+16`, `5e-05`) and writes `inf` and `nan`, all without a decimal point. The lemma's "a point exactly for floats" holds only for the fixed-point form modelled. `int()` refuses those texts too, so a float entry still reads back as corrupt.
- Aggregate.Average: true division and float sums are exact real arithmetic here.
- Filesystem failures: a failing `mkdir` or write, an entry path that is a directory, a media path that is a directory, and permissions are not modelled. Existence of a cache entry means a regular file at that path.
- Timestamps: every write gets a strictly later time. Coarse timestamps, where a media edit and an entry write share a time (the entry is then fresh), are not modelled.
- Cli.Run: with the cache enabled, its contract does not restate each file's result. Each result is what `Cli.Resolve` returned for that file, and `Cli.Resolve`'s contract ties it to the cache as it stood at that step; the chain of intermediate cache states is not carried up.
- Cli.Run: its "host unchanged" claims, on the early exits and for the filesystem with `--no-cache`, describe the state after `main` has created the cache directory (mlength/__main__.py:73-74). That happens on every run, before the paths are checked, and is not part of this model.
- Cli.Process: with the cache enabled, the same applies.
- Cli.Generate: with the cache enabled, the same applies.
- Aggregate.Add: Python's `+` on a float rounds to the nearest double; here a float sum is exact addition of reals.
- Aggregate.SumMs: for the same reason, a `sum` that involves a float is the exact real total, not the rounded one.
- Aggregate.SumIsTotal: the total it is compared with is the exact real total, so with floats it is not the rounded sum Python prints.
- Paths.DistinctFilesDistinctEntries: paths are compared literally. `..` and symbolic links are not resolved, as `absolute()` does not resolve them either; the operating system may still map two different absolute paths to one file, and the model's filesystem does not capture that.
- Command-line handling: option parsing, the existence check on positional arguments, `expanduser`/`mkdir` of the cache directory, and reading and splitting standard input are glue. The paths from standard input are an input.
- Debug output (`set_debug`, `debug`) has no effect on results.
- The final `raise ValueError` branches of `main` and `display_duration` cannot be reached with the options allowed, and are not modelled.
- Concurrency: there is no locking, and the tool runs as a single process.

=== FILE: aggregate.dfy ===
/**
 * What the command line does with resolved durations: `display_duration`
 * (mlength/__init__.py) up to float formatting, and the sum, average and
 * first maximum / first minimum of `main` (mlength/__main__.py).
 */
module Aggregate {
  import opened Wrappers
  import opened Paths
  import opened Backends

  datatype Operation = Sum | Max | Min | Avg

  /** The `--display` choices: `ms`, `s`, `m`, `human`, `path`, `all`. */
  datatype Display = MsDisplay | Seconds | Minutes | Human | PathDisplay | All

  /** The numeric formats; the rounding and `divmod` arithmetic behind each is not modelled. */
  datatype Unit = Millis | Secs | Mins | Clock

  /** A displayed duration before float formatting: a formatted number, a path, or the
      `|`-joined parts of the `all` display. */
  datatype Rendered = Number(unit: Unit, ms: Ms) | PathText(path: MediaPath) | Joined(parts: seq<Rendered>)

  /** The five displays `all` is made of, in the order they are joined. */
  const AllParts: seq<Display> := [MsDisplay, Seconds, Minutes, Human, PathDisplay]

  /**
   * `display_duration(ms, display=..., path=...)`. `None` is the
   * `AssertionError` raised when `path` or `all` is asked for without a path.
   */
  function DisplayDuration(ms: Ms, display: Display, path: Option<MediaPath>): (r: Option<Rendered>)
    ensures r.None? <==> path.None? && (display == PathDisplay || display == All)
    ensures r.Some? && display != All ==> !r.value.Joined?
    ensures r.Some? && display == PathDisplay ==> r.value == PathText(path.value)
  {
    match display
    case MsDisplay => Some(Number(Millis, ms))
    case Seconds => Some(Number(Secs, ms))
    case Minutes => Some(Number(Mins, ms))
    case Human => Some(Number(Clock, ms))
    case PathDisplay => if path.None? then None else Some(PathText(path.value))
    case All =>
      if path.None? then None
      else Some(Joined([Number(Millis, ms), Number(Secs, ms), Number(Mins, ms), Number(Clock, ms), PathText(path.value)]))
  }

  /** The `all` display is the other five, each shown for the same duration and path, joined in order. */
  lemma AllJoinsItsParts(ms: Ms, path: MediaPath)
    ensures DisplayDuration(ms, All, Some(path)).Some?
    ensures var parts := DisplayDuration(ms, All, Some(path)).value.parts;
      |parts| == |AllParts| == 5
      && forall i :: 0 <= i < 5 ==> Some(parts[i]) == DisplayDuration(ms, AllParts[i], Some(path))
  {
  }

  /** `a + b` on Python numbers: an int stays an int, anything with a float becomes a float. */
  function Add(a: Ms, b: Ms): (c: Ms)
    ensures c.Value() == a.Value() + b.Value()
    ensures c.IntMs? <==> a.IntMs? && b.IntMs?
  {
    if a.IntMs? && b.IntMs? then IntMs(a.n + b.n) else FloatMs(a.Value() + b.Value())
  }

  /** Every duration is an `int`. */
  predicate AllInts(ds: seq<Ms>)
  {
    forall i :: 0 <= i < |ds| ==> ds[i].IntMs?
  }

  /** `sum(durations)`: a left fold of `+` starting from the int `0`. */
  function SumMs(ds: seq<Ms>): (s: Ms)
    ensures s.IntMs? <==> AllInts(ds)
  {
    if ds == [] then IntMs(0)
    else
      var s := Add(SumMs(ds[..|ds| - 1]), ds[|ds| - 1]);
      assert AllInts(ds) <==> AllInts(ds[..|ds| - 1]) && ds[|ds| - 1].IntMs? by {
        if AllInts(ds[..|ds| - 1]) && ds[|ds| - 1].IntMs? {
          forall i | 0 <= i < |ds| ensures ds[i].IntMs? {
            if i < |ds| - 1 { assert ds[i] == ds[..|ds| - 1][i]; }
          }
        }
      }
      s
  }

  /** The total of the durations' values, counted from the front. */
  function Total(ds: seq<Ms>): real
  {
    if ds == [] then 0.0 else ds[0].Value() + Total(ds[1..])
  }

  lemma {:induction false} TotalAppend(ds: seq<Ms>, d: Ms)
    ensures Total(ds + [d]) == Total(ds) + d.Value()
  {
    if ds != [] {
      assert (ds + [d])[1..] == ds[1..] + [d];
      TotalAppend(ds[1..], d);
    } else {
      assert [] + [d] == [d];
    }
  }

  /** `sum` reports the total of all durations, whichever order the fold takes them in. */
  lemma {:induction false} SumIsTotal(ds: seq<Ms>)
    ensures SumMs(ds).Value() == Total(ds)
  {
    if ds != [] {
      var init := ds[..|ds| - 1];
      SumIsTotal(init);
      TotalAppend(init, ds[|ds| - 1]);
      assert init + [ds[|ds| - 1]] == ds;
    }
  }

  /** `sum(durations) / len(media_files)`: true division always gives a float. */
  function Average(ds: seq<Ms>, count: nat): (a: Ms)
    requires count > 0
    ensures a.FloatMs? && a.Value() * (count as real) == SumMs(ds).Value()
  {
    FloatMs(SumMs(ds).Value() / count as real)
  }

  /** Index `i` holds the largest duration, and no earlier index holds one as large. */
  predicate IsFirstMax(ds: seq<Ms>, i: int)
  {
    0 <= i < |ds|
    && (forall j :: 0 <= j < |ds| ==> ds[j].Value() <= ds[i].Value())
    && (forall j :: 0 <= j < i ==> ds[j].Value() < ds[i].Value())
  }

  /** Index `i` holds the smallest duration, and no earlier index holds one as small. */
  predicate IsFirstMin(ds: seq<Ms>, i: int)
  {
    0 <= i < |ds|
    && (forall j :: 0 <= j < |ds| ==> ds[i].Value() <= ds[j].Value())
    && (forall j :: 0 <= j < i ==> ds[i].Value() < ds[j].Value())
  }

  /** `max(enumerate(durations), key=itemgetter(1))[0]`: a later duration replaces the
      current maximum only when strictly larger, so the first maximum wins. */
  function FirstMaxIndex(ds: seq<Ms>): (i: nat)
    requires |ds| > 0
    ensures IsFirstMax(ds, i)
  {
    if |ds| == 1 then 0
    else
      var k := FirstMaxIndex(ds[..|ds| - 1]);
      assert forall j :: 0 <= j < |ds| - 1 ==> ds[j] == ds[..|ds| - 1][j];
      if ds[|ds| - 1].Value() > ds[k].Value() then |ds| - 1 else k
  }

  /** `min(enumerate(durations), key=itemgetter(1))[0]`: the first minimum wins. */
  function FirstMinIndex(ds: seq<Ms>): (i: nat)
    requires |ds| > 0
    ensures IsFirstMin(ds, i)
  {
    if |ds| == 1 then 0
    else
      var k := FirstMinIndex(ds[..|ds| - 1]);
      assert forall j :: 0 <= j < |ds| - 1 ==> ds[j] == ds[..|ds| - 1][j];
      if ds[|ds| - 1].Value() < ds[k].Value() then |ds| - 1 else k
  }

  /** The first maximum is unique: any index with that property is the one `max` picks. */
  lemma FirstMaxUnique(ds: seq<Ms>, i: int)
    requires IsFirstMax(ds, i)
    ensures i == FirstMaxIndex(ds)
  {
  }

  /** The first minimum is unique: any index with that property is the one `min` picks. */
  lemma FirstMinUnique(ds: seq<Ms>, i: int)
    requires IsFirstMin(ds, i)
    ensures i == FirstMinIndex(ds)
  {
  }
}

=== FILE: backends.dfy ===
/**
 * Duration resolution (`mediainfo_duration`, `ffprobe_duration` and
 * `parse_duration` in mlength/__init__.py). The metadata library and the
 * probe process are foreign: what they report about a file is an input,
 * `MediaFacts`, and only the decisions taken on their answers are modelled.
 */
module Backends {
  import opened Wrappers
  import Text

  /** A duration in milliseconds: an `int`, or a `float` when the metadata library reports one. */
  datatype Ms = IntMs(n: int) | FloatMs(x: real)
  {
    /** The number itself; Python compares and adds ints and floats by value. */
    function Value(): real
    {
      match this
      case IntMs(n) => n as real
      case FloatMs(x) => x
    }
  }

  /** The exceptions the core raises; every one of them is a `ValueError` except `MediaNotFound`. */
  datatype Error =
    | NoDurationFound     // a backend found no duration
    | ProbeUnavailable    // `ffprobe` is not on PATH
    | BadProbeOutput      // `float()` rejected the probe's output
    | CorruptCacheEntry   // `int()` rejected the cache entry's text
    | MediaNotFound       // `stat()` of a media file that does not exist

  /** A duration, or the exception raised instead of it. */
  datatype Outcome = Ok(ms: Ms) | Err(error: Error)

  /** The `--lib` choice, and also the name of each backend. */
  datatype Lib = Mediainfo | Ffprobe

  /** One track of `MediaInfo.parse(path).tracks`; only its `duration` attribute matters. */
  datatype Track = Track(duration: Option<Ms>)

  /** What running `ffprobe` on the file gives. */
  datatype ProbeRun =
    | NotInstalled              // `shutil.which("ffprobe")` is falsy
    | ProcessFailed             // `check_output` raised `CalledProcessError`
    | Printed(output: string)   // the decoded standard output

  /** Everything the two backends would report about one media file. */
  datatype MediaFacts = MediaFacts(tracks: seq<Track>, probe: ProbeRun)

  /** Track `i` is the first one that carries a duration. */
  predicate FirstWithDuration(tracks: seq<Track>, i: int)
  {
    0 <= i < |tracks| && tracks[i].duration.Some?
    && forall j :: 0 <= j < i ==> tracks[j].duration.None?
  }

  /** The duration of the first track that has one. */
  function FirstDuration(tracks: seq<Track>): Option<Ms>
  {
    if tracks == [] then None
    else if tracks[0].duration.Some? then tracks[0].duration
    else FirstDuration(tracks[1..])
  }

  /** The scan finds the first track with a duration, and nothing exactly when no track has one. */
  lemma {:induction false} FirstDurationIsFirst(tracks: seq<Track>)
    ensures var d := FirstDuration(tracks);
      d.Some? ==> exists i :: FirstWithDuration(tracks, i) && d.value == tracks[i].duration.value
    ensures FirstDuration(tracks).None? <==> forall i :: 0 <= i < |tracks| ==> tracks[i].duration.None?
  {
    if tracks == [] {
    } else if tracks[0].duration.Some? {
      assert FirstWithDuration(tracks, 0);
    } else {
      FirstDurationIsFirst(tracks[1..]);
      var d := FirstDuration(tracks[1..]);
      if d.Some? {
        var i :| FirstWithDuration(tracks[1..], i) && d.value == tracks[1..][i].duration.value;
        assert FirstWithDuration(tracks, i + 1);
      } else {
        assert forall i :: 1 <= i < |tracks| ==> tracks[i].duration == tracks[1..][i - 1].duration;
      }
    }
  }

  /** The result `mediainfo_duration` gives for these tracks. */
  function MediainfoOutcome(tracks: seq<Track>): Outcome
  {
    if |tracks| == 0 then Err(NoDurationFound)
    else match FirstDuration(tracks)
      case Some(d) => Ok(d)
      case None => Err(NoDurationFound)
  }

  /**
   * `mediainfo_duration` succeeds exactly when some track has a duration,
   * with the first such track's; otherwise it raises "no duration found".
   */
  lemma MediainfoOutcomeIsFirst(tracks: seq<Track>)
    ensures MediainfoOutcome(tracks).Ok? <==> exists i :: FirstWithDuration(tracks, i)
    ensures var r := MediainfoOutcome(tracks);
      r.Ok? ==> exists i :: FirstWithDuration(tracks, i) && r.ms == tracks[i].duration.value
    ensures MediainfoOutcome(tracks).Err? ==> MediainfoOutcome(tracks).error == NoDurationFound
  {
    FirstDurationIsFirst(tracks);
  }

  /** `mediainfo_duration`: the `for ... break ... else raise` scan over the parsed tracks. */
  method MediainfoDuration(tracks: seq<Track>) returns (r: Outcome)
    ensures r.Ok? <==> exists i :: FirstWithDuration(tracks, i)
    ensures r.Ok? ==> exists i :: FirstWithDuration(tracks, i) && r.ms == tracks[i].duration.value
    ensures r.Err? ==> r.error == NoDurationFound
    ensures r == MediainfoOutcome(tracks)
  {
    MediainfoOutcomeIsFirst(tracks);
    if |tracks| == 0 {
      return Err(NoDurationFound);
    }
    var k := 0;
    while k < |tracks|
      invariant 0 <= k <= |tracks|
      invariant forall j :: 0 <= j < k ==> tracks[j].duration.None?
    {
      if tracks[k].duration.Some? {
        assert FirstWithDuration(tracks, k);
        return Ok(tracks[k].duration.value);
      }
      k := k + 1;
    }
    return Err(NoDurationFound);
  }

  /** `ffprobe_duration`: the checks on the probe's run and output, then the seconds-to-ms conversion. */
  function FfprobeOutcome(probe: ProbeRun): Outcome
  {
    match probe
    case NotInstalled => Err(ProbeUnavailable)
    case ProcessFailed => Err(NoDurationFound)
    case Printed(output) =>
      var t := Text.Strip(output);
      if t == "" || t == "N/A" then Err(NoDurationFound)
      else match Text.SecondsToMs(t)
        case None => Err(BadProbeOutput)
        case Some(ms) => Ok(IntMs(ms))
  }

  /**
   * How `ffprobe_duration` fails: "not installed" exactly when the tool is
   * missing; "no duration found" when the process fails or prints blank or
   * `N/A`; "bad output" exactly when the printed text is none of those and
   * does not read as seconds. A success is always an `int` of milliseconds.
   */
  lemma FfprobeOutcomeCases(probe: ProbeRun)
    ensures var r := FfprobeOutcome(probe);
      r.Ok? ==> r.ms.IntMs?
    ensures FfprobeOutcome(probe) == Err(ProbeUnavailable) <==> probe.NotInstalled?
    ensures probe.ProcessFailed? ==> FfprobeOutcome(probe) == Err(NoDurationFound)
    ensures probe.Printed? && Text.Strip(probe.output) in {"", "N/A"} ==> FfprobeOutcome(probe) == Err(NoDurationFound)
    ensures FfprobeOutcome(probe) == Err(BadProbeOutput) <==>
      probe.Printed? && Text.Strip(probe.output) !in {"", "N/A"} && Text.SecondsToMs(Text.Strip(probe.output)).None?
  {
  }

  /** A probe that prints a whole number of seconds yields that many thousand milliseconds. */
  lemma FfprobeWholeSeconds(n: nat, newline: string)
    requires Text.AllSpace(newline)
    ensures FfprobeOutcome(Printed(Text.NatToString(n) + newline)) == Ok(IntMs(n * 1000))
  {
    Text.SecondsToMsWhole(n);
    FfprobeNumberLine(Text.NatToString(n), newline, n * 1000);
  }

  /**
   * A probe that prints seconds with a fractional part yields the whole
   * seconds and the first three fractional digits, the rest cut off.
   */
  lemma FfprobeFractional(n: nat, frac: string, newline: string)
    requires Text.AllDigits(frac) && |frac| >= 3
    requires Text.AllSpace(newline)
    ensures FfprobeOutcome(Printed(Text.NatToString(n) + "." + frac + newline))
      == Ok(IntMs(n * 1000 + Text.DigitsValue(frac[..3])))
  {
    var digits := Text.NatToString(n);
    var s := digits + "." + frac;
    var ms := n * 1000 + Text.DigitsValue(frac[..3]);
    assert Text.SecondsToMs(s) == Some(ms) by { Text.SecondsToMsTruncates(n, frac); }
    assert s[0] == digits[0] && s[|s| - 1] == frac[|frac| - 1];
    FfprobeNumberLine(s, newline, ms);
  }

  /** A line of output that starts and ends with a digit and reads as `ms` milliseconds gives `ms`. */
  lemma FfprobeNumberLine(s: string, newline: string, ms: int)
    requires s != [] && Text.IsDigit(s[0]) && Text.IsDigit(s[|s| - 1])
    requires Text.AllSpace(newline)
    requires Text.SecondsToMs(s) == Some(ms)
    ensures FfprobeOutcome(Printed(s + newline)) == Ok(IntMs(ms))
  {
    Text.StripTrailing(s, newline);
    assert s != "N/A" by { assert "N/A"[0] == 'N'; }
  }

  /** The backends `parse_duration(lib)` runs, in order. */
  function Invoked(lib: Lib, facts: MediaFacts): seq<Lib>
  {
    match lib
    case Ffprobe => [Ffprobe]
    case Mediainfo =>
      if MediainfoOutcome(facts.tracks).Ok? then [Mediainfo] else [Mediainfo, Ffprobe]
  }

  /**
   * `parse_duration(lib)`: with `mediainfo`, the library's duration, and the
   * probe's result (error included) whenever the library raises; with
   * `ffprobe`, the probe alone.
   */
  function ParseDuration(lib: Lib, facts: MediaFacts): Outcome
  {
    match lib
    case Ffprobe => FfprobeOutcome(facts.probe)
    case Mediainfo =>
      var mi := MediainfoOutcome(facts.tracks);
      if mi.Ok? then mi else FfprobeOutcome(facts.probe)
  }

  /**
   * The backends run start with the selected one; the probe runs exactly
   * when it is selected or the library raised, and the last backend run is
   * the one whose answer `parse_duration` returns.
   */
  lemma InvokedLastDecides(lib: Lib, facts: MediaFacts)
    ensures var calls := Invoked(lib, facts);
      1 <= |calls| <= 2 && calls[0] == lib
      && (Ffprobe in calls <==> lib == Ffprobe || MediainfoOutcome(facts.tracks).Err?)
      && ParseDuration(lib, facts)
         == if calls[|calls| - 1] == Ffprobe then FfprobeOutcome(facts.probe) else MediainfoOutcome(facts.tracks)
  {
  }

  /** Combined mode: the library wins when it finds a duration, otherwise the probe's answer
      is passed through unchanged, whatever error it is. */
  lemma MediainfoFallsBackToFfprobe(facts: MediaFacts)
    ensures var r := ParseDuration(Mediainfo, facts);
      (exists i :: FirstWithDuration(facts.tracks, i)) ==>
        exists i :: FirstWithDuration(facts.tracks, i) && r == Ok(facts.tracks[i].duration.value)
    ensures var r := ParseDuration(Mediainfo, facts);
      (forall i :: 0 <= i < |facts.tracks| ==> facts.tracks[i].duration.None?) ==>
        r == FfprobeOutcome(facts.probe) && Invoked(Mediainfo, facts) == [Mediainfo, Ffprobe]
  {
    MediainfoOutcomeIsFirst(facts.tracks);
  }

  /** The probe's errors are not caught in the fallback: combined mode fails exactly when
      neither backend finds a duration. */
  lemma CombinedFailsOnlyIfBothFail(facts: MediaFacts)
    ensures ParseDuration(Mediainfo, facts).Err? <==>
      MediainfoOutcome(facts.tracks).Err? && FfprobeOutcome(facts.probe).Err?
  {
  }

  /** `--lib ffprobe` never consults the metadata library: the tracks do not matter. */
  lemma FfprobeModeIgnoresTracks(facts: MediaFacts, tracks: seq<Track>)
    ensures ParseDuration(Ffprobe, facts) == ParseDuration(Ffprobe, facts.(tracks := tracks))
    ensures Invoked(Ffprobe, facts) == [Ffprobe]
  {
  }
}

=== FILE: cache.dfy ===
/**
 * The duration cache (`read_cached_duration`, `write_cached_duration` and
 * `cached_duration` in mlength/__init__.py) over a model of the host: a
 * filesystem of regular files and directories, a clock that stamps each
 * write, and the record of every backend run.
 */
module Cache {
  import Text
  import opened Paths
  import opened Backends

  /** A regular file: its text and its last-modified time. */
  datatype FileEntry = FileEntry(content: string, mtime: int)

  /** `str(duration)`: the text `write_cached_duration` stores. */
  function MsText(d: Ms): string
  {
    match d
    case IntMs(n) => Text.IntToString(n)
    case FloatMs(x) => Text.FloatText(x)
  }

  /** The text written for an integer duration is a sign and digits; the one written for a
      float always holds a decimal point. */
  lemma MsTextMarksFloats(d: Ms)
    ensures MsText(d) != []
    ensures '.' in MsText(d) <==> d.FloatMs?
  {
    var s := MsText(d);
    match d
    case IntMs(n) =>
      var m: nat := if n < 0 then -n else n;
      var digits := Text.NatToString(m);
      assert s == (if n < 0 then "-" else "") + digits;
      forall i | 0 <= i < |s| ensures s[i] != '.' {
        if n < 0 && i > 0 {
          assert s[i] == digits[i - 1];
        }
      }
    case FloatMs(x) =>
      assert s[|s| - 2] == '.';
  }

  /** `read_cached_duration` given the entry's text: `int()` of it, or a `ValueError`. */
  function ReadCached(content: string): Outcome
  {
    match Text.ParseInt(content)
    case Some(n) => Ok(IntMs(n))
    case None => Err(CorruptCacheEntry)
  }

  /** An entry reads as the integer `int()` parses from it, and as a corrupt entry exactly
      when `int()` refuses it, as blank text always is. */
  lemma ReadCachedIsInt(content: string)
    ensures var r := ReadCached(content);
      r.Ok? ==> r.ms.IntMs? && Text.ParseInt(content).Some? && r.ms.n == Text.ParseInt(content).value
    ensures ReadCached(content).Err? <==> Text.ParseInt(content).None?
    ensures ReadCached(content).Err? ==> ReadCached(content).error == CorruptCacheEntry
    ensures Text.AllSpace(content) ==> ReadCached(content) == Err(CorruptCacheEntry)
  {
    Text.ParseIntSpec(content);
  }

  /** Round trip: an integer duration written to an entry is read back unchanged. */
  lemma WriteThenReadInt(n: int)
    ensures ReadCached(MsText(IntMs(n))) == Ok(IntMs(n))
  {
    Text.ParseIntOfIntToString(n);
  }

  /** A float duration is written as `str(float)`, which `int()` refuses when it is read back. */
  lemma WriteThenReadFloat(x: real)
    ensures ReadCached(MsText(FloatMs(x))) == Err(CorruptCacheEntry)
  {
    Text.ParseIntOfFloatText(x);
  }

  /** The directories `mkdir(parents=True)` may have to create for a file at `p`: its proper ancestors. */
  function Ancestors(p: Path): (s: set<Path>)
    ensures p != [] ==> Parent(p) in s && [] in s
  {
    assert p != [] ==> p[..0] == [];
    set k | 0 <= k < |p| :: p[..k]
  }

  /** The directories after `write_cached_duration` to `e`: the parent's ancestry is created
      only when the parent does not exist. */
  function DirsAfterWrite(files: map<Path, FileEntry>, dirs: set<Path>, e: Path): set<Path>
  {
    if Parent(e) in files || Parent(e) in dirs then dirs else dirs + Ancestors(e)
  }

  /** The cache entry exists but was last modified strictly before the media file. */
  predicate Stale(files: map<Path, FileEntry>, mf: MediaFile)
  {
    mf.cacheFile in files && mf.absPath in files
    && files[mf.cacheFile].mtime < files[mf.absPath].mtime
  }

  /** `cached_duration` has to run the resolver: the entry is absent or stale. */
  predicate Resolves(files: map<Path, FileEntry>, mf: MediaFile)
  {
    mf.cacheFile !in files || Stale(files, mf)
  }

  class Host {
    var files: map<Path, FileEntry>
    var dirs: set<Path>
    var clock: int
    /** Every backend run so far, in order. */
    var calls: seq<Lib>

    /** The root exists, and no file was modified at or after the current time. */
    ghost predicate Valid()
      reads this
    {
      [] in dirs && forall p :: p in files ==> files[p].mtime < clock
    }

    constructor (files0: map<Path, FileEntry>, dirs0: set<Path>, clock0: int)
      requires forall p :: p in files0 ==> files0[p].mtime < clock0
      ensures Valid()
      ensures files == files0 && dirs == dirs0 + {[]} && clock == clock0 && calls == []
    {
      files, dirs, clock, calls := files0, dirs0 + {[]}, clock0, [];
    }

    /** `Path.exists()`: a file or a directory is there; the root always is. */
    function Exists(p: Path): (e: bool)
      reads this
      ensures Valid() && p == [] ==> e
    {
      p in files || p in dirs
    }

    /** Another program writes the file at `p` (say, the media file is edited): it gets the current time. */
    method Touch(p: Path, content: string)
      requires Valid()
      modifies this
      ensures Valid()
      ensures files == old(files)[p := FileEntry(content, old(clock))] && clock == old(clock) + 1
      ensures dirs == old(dirs) && calls == old(calls)
    {
      files := files[p := FileEntry(content, clock)];
      clock := clock + 1;
    }

    /** `parse_duration(lib)`, with the backends it runs recorded. */
    method ParseDuration(lib: Lib, facts: MediaFacts) returns (r: Outcome)
      modifies this`calls
      ensures r == Backends.ParseDuration(lib, facts)
      ensures calls == old(calls) + Invoked(lib, facts)
    {
      r := Backends.ParseDuration(lib, facts);
      calls := calls + Invoked(lib, facts);
    }

    /** `write_cached_duration`: create the missing parent directories, then write `str(d)` with a fresh time stamp. */
    method WriteCachedDuration(mf: MediaFile, d: Ms)
      requires Valid()
      modifies this`files, this`dirs, this`clock
      ensures Valid()
      ensures files == old(files)[mf.cacheFile := FileEntry(MsText(d), old(clock))]
      ensures dirs == DirsAfterWrite(old(files), old(dirs), mf.cacheFile)
      ensures old(dirs) <= dirs && Exists(Parent(mf.cacheFile))
      ensures clock == old(clock) + 1
    {
      var parent := Parent(mf.cacheFile);
      if !Exists(parent) {
        dirs := dirs + Ancestors(mf.cacheFile);
      }
      files := files[mf.cacheFile := FileEntry(MsText(d), clock)];
      clock := clock + 1;
    }

    /**
     * `cached_duration`: an absent entry is resolved and written through; a
     * stale one is unlinked and the call repeated, which then finds it
     * absent (so `depth`, the number of recursive calls, is at most one); a
     * fresh one, including one exactly as old as the media file, is read
     * without running any backend.
     */
    method CachedDuration(mf: MediaFile, lib: Lib, facts: MediaFacts) returns (r: Outcome, ghost depth: nat)
      requires Valid()
      modifies this
      ensures Valid()
      ensures depth <= 1 && (depth == 1 <==> Stale(old(files), mf))
      ensures Resolves(old(files), mf) ==>
        r == Backends.ParseDuration(lib, facts) && calls == old(calls) + Invoked(lib, facts)
      ensures Resolves(old(files), mf) && r.Ok? ==>
        && files == (old(files) - {mf.cacheFile})[mf.cacheFile := FileEntry(MsText(r.ms), old(clock))]
        && dirs == DirsAfterWrite(old(files) - {mf.cacheFile}, old(dirs), mf.cacheFile)
        && clock == old(clock) + 1
      ensures Resolves(old(files), mf) && r.Err? ==>
        files == old(files) - {mf.cacheFile} && dirs == old(dirs) && clock == old(clock)
      ensures !Resolves(old(files), mf) ==>
        && files == old(files) && dirs == old(dirs) && clock == old(clock) && calls == old(calls)
        && r == (if mf.absPath in old(files) then ReadCached(old(files)[mf.cacheFile].content)
                 else Err(MediaNotFound))
      decreases if mf.cacheFile in files then 1 else 0
    {
      var cf := mf.cacheFile;
      if cf !in files {
        assert files - {cf} == files;
        r := ParseDuration(lib, facts);
        if r.Ok? {
          WriteCachedDuration(mf, r.ms);
        }
        return r, 0;
      }
      if mf.absPath !in files {
        assert !Resolves(files, mf);
        return Err(MediaNotFound), 0;
      }
      if files[cf].mtime < files[mf.absPath].mtime {
        assert Stale(files, mf);
        files := files - {cf};
        assert cf !in files && files - {cf} == files;
        ghost var d;
        r, d := CachedDuration(mf, lib, facts);
        return r, d + 1;
      }
      assert !Resolves(files, mf);
      r := ReadCached(files[cf].content);
      return r, 0;
    }

    /**
     * A first call on a file with no entry returns what the resolver returns;
     * a second call, the media file untouched, returns the identical integer
     * and runs no backend (a float duration, though, is not read back).
     */
    method MissThenHit(mf: MediaFile, lib: Lib, facts: MediaFacts) returns (first: Outcome, second: Outcome)
      requires Valid()
      requires mf.cacheFile !in files && mf.absPath in files
      modifies this
      ensures Valid()
      ensures first == Backends.ParseDuration(lib, facts)
      ensures first.Ok? ==> calls == old(calls) + Invoked(lib, facts)
      ensures first.Ok? && first.ms.IntMs? ==> second == first
      ensures first.Ok? && first.ms.FloatMs? ==> second == Err(CorruptCacheEntry)
      ensures first.Err? ==> second == first
    {
      ghost var depth;
      ghost var mediaTime := files[mf.absPath].mtime;
      first, depth := CachedDuration(mf, lib, facts);
      assert first.Ok? ==> files[mf.absPath].mtime == mediaTime < files[mf.cacheFile].mtime;
      second, depth := CachedDuration(mf, lib, facts);
      if first.Ok? {
        match first.ms
        case IntMs(n) => WriteThenReadInt(n);
        case FloatMs(x) => WriteThenReadFloat(x);
      }
    }

    /**
     * Modifying the media file after its duration is cached makes the next
     * call resolve afresh and rewrite the entry.
     */
    method TouchInvalidates(mf: MediaFile, lib: Lib, facts: MediaFacts, content: string) returns (r: Outcome)
      requires Valid()
      requires mf.cacheFile in files && mf.absPath != mf.cacheFile
      modifies this
      ensures Valid()
      ensures r == Backends.ParseDuration(lib, facts)
      ensures calls == old(calls) + Invoked(lib, facts)
      ensures r.Ok? ==> mf.cacheFile in files && files[mf.cacheFile].content == MsText(r.ms)
      ensures r.Err? ==> mf.cacheFile !in files
    {
      Touch(mf.absPath, content);
      assert Stale(files, mf);
      ghost var depth;
      r, depth := CachedDuration(mf, lib, facts);
    }
  }
}

=== FILE: cli.dfy ===
/**
 * `main` in mlength/__main__.py from the point where the options are
 * parsed: paths from standard input, the per-file output loop, and the
 * aggregated report.
 */
module Cli {
  import opened Wrappers
  import opened Paths
  import opened Backends
  import opened Cache
  import opened Aggregate

  /** One line written by `click.echo`, to standard output or to standard error. */
  datatype Line = Stdout(shown: Rendered) | Stderr(message: string)

  /** An exception that ends the run. */
  datatype Failure =
    | BadParameter(path: MediaPath)   // a path read from standard input does not exist
    | Resolution(error: Error)        // resolving a duration raised
    | AssertionFailed                 // `display_duration` was asked for a path it was not given

  /** How the run ends: a normal return, `SystemExit(code)`, or an exception. */
  datatype Exit = Finished | ExitStatus(code: int) | Raised(failure: Failure)

  /** Everything a run writes, and how it ends. */
  datatype Transcript = Transcript(lines: seq<Line>, exit: Exit)

  /** The `sum` check: `display in ["path", "all"]`. */
  predicate SumRejects(display: Display)
  {
    display == PathDisplay || display == All
  }

  /** The `avg` check as written: `display_duration in ["path", "all"]` compares the
      function object, not the option, with two strings, so it never holds. */
  predicate AvgRejects(display: Display)
  {
    false
  }

  /** The report of an aggregating run once every duration is known. */
  function Report(media: seq<MediaPath>, ds: seq<Ms>, op: Operation, display: Display): (t: Transcript)
    requires |ds| == |media| > 0
    ensures t.exit == ExitStatus(1) <==> op == Sum && SumRejects(display)
    ensures t.exit == Raised(AssertionFailed) <==> op == Avg && (display == PathDisplay || display == All)
    ensures t.exit == Finished <==> |t.lines| == 1 && t.lines[0].Stdout?
    ensures t.exit == ExitStatus(1) ==> t.lines == [Stderr("Cannot display path for sum/all")]
    ensures t.exit.Raised? ==> t.lines == []
  {
    match op
    case Sum =>
      if SumRejects(display) then Transcript([Stderr("Cannot display path for sum/all")], ExitStatus(1))
      else Transcript([Stdout(DisplayDuration(SumMs(ds), display, None).value)], Finished)
    case Avg =>
      if AvgRejects(display) then Transcript([Stderr("Cannot display path/all for average")], ExitStatus(1))
      else (match DisplayDuration(Average(ds, |media|), display, None)
        case None => Transcript([], Raised(AssertionFailed))
        case Some(shown) => Transcript([Stdout(shown)], Finished))
    case Max =>
      var i := FirstMaxIndex(ds);
      Transcript([Stdout(DisplayDuration(ds[i], display, Some(media[i])).value)], Finished)
    case Min =>
      var i := FirstMinIndex(ds);
      Transcript([Stdout(DisplayDuration(ds[i], display, Some(media[i])).value)], Finished)
  }

  /** `max` and `min` report the first extreme duration together with the path it came from. */
  lemma ExtremesCarryTheirPath(media: seq<MediaPath>, ds: seq<Ms>, display: Display)
    requires |ds| == |media| > 0
    ensures exists i :: (IsFirstMax(ds, i) &&
      Report(media, ds, Max, display).lines == [Stdout(DisplayDuration(ds[i], display, Some(media[i])).value)])
    ensures exists i :: (IsFirstMin(ds, i) &&
      Report(media, ds, Min, display).lines == [Stdout(DisplayDuration(ds[i], display, Some(media[i])).value)])
  {
    var i := FirstMaxIndex(ds);
    var k := FirstMinIndex(ds);
    assert Report(media, ds, Max, display).lines == [Stdout(DisplayDuration(ds[i], display, Some(media[i])).value)];
    assert Report(media, ds, Min, display).lines == [Stdout(DisplayDuration(ds[k], display, Some(media[k])).value)];
  }

  /**
   * `sum` prints one number whose value is the total of every duration, an int exactly when
   * every duration is; `avg` prints one float which, times the number of files, is that total.
   */
  lemma SumAndAvgPrintTheAggregate(media: seq<MediaPath>, ds: seq<Ms>, display: Display)
    requires |ds| == |media| > 0
    ensures !SumRejects(display) ==>
      var t := Report(media, ds, Sum, display);
      && t.exit == Finished && |t.lines| == 1 && t.lines[0].Stdout? && t.lines[0].shown.Number?
      && t.lines[0].shown.ms.Value() == Total(ds)
      && (t.lines[0].shown.ms.IntMs? <==> AllInts(ds))
    ensures display != PathDisplay && display != All ==>
      var t := Report(media, ds, Avg, display);
      && t.exit == Finished && |t.lines| == 1 && t.lines[0].Stdout? && t.lines[0].shown.Number?
      && t.lines[0].shown.ms.FloatMs?
      && t.lines[0].shown.ms.Value() * (|media| as real) == Total(ds)
  {
    SumIsTotal(ds);
  }

  /** The average guard lets `path` and `all` through, so the run dies on the assertion in
      `display_duration` instead of printing the intended message with status 1. */
  lemma AvgGuardNeverRejects(media: seq<MediaPath>, ds: seq<Ms>)
    requires |ds| == |media| > 0
    ensures forall d :: !AvgRejects(d)
    ensures Report(media, ds, Avg, PathDisplay) == Transcript([], Raised(AssertionFailed))
    ensures Report(media, ds, Avg, All) == Transcript([], Raised(AssertionFailed))
  {
  }

  /** The worked example: durations 1000, 2000 and 3000 ms. */
  lemma ThreeFilesExample(a: MediaPath, b: MediaPath, c: MediaPath)
    ensures var media, ds := [a, b, c], [IntMs(1000), IntMs(2000), IntMs(3000)];
      && Report(media, ds, Sum, MsDisplay) == Transcript([Stdout(Number(Millis, IntMs(6000)))], Finished)
      && Report(media, ds, Avg, MsDisplay) == Transcript([Stdout(Number(Millis, FloatMs(2000.0)))], Finished)
      && Report(media, ds, Max, PathDisplay) == Transcript([Stdout(PathText(c))], Finished)
      && Report(media, ds, Min, PathDisplay) == Transcript([Stdout(PathText(a))], Finished)
      && Report(media, ds, Sum, All) == Transcript([Stderr("Cannot display path for sum/all")], ExitStatus(1))
  {
    var ds := [IntMs(1000), IntMs(2000), IntMs(3000)];
    assert ds[..2] == [IntMs(1000), IntMs(2000)] && ds[..2][..1] == [IntMs(1000)];
    assert SumMs([IntMs(1000)]) == IntMs(1000) by { assert [IntMs(1000)][..0] == []; }
    assert SumMs(ds[..2]) == IntMs(3000);
    assert SumMs(ds) == IntMs(6000);
    FirstMaxUnique(ds, 2);
    FirstMinUnique(ds, 0);
  }

  /** The line the per-file loop prints for one file: the path itself for `path`, the
      displayed duration otherwise. */
  function PerFileLine(m: MediaPath, d: Ms, display: Display): (l: Line)
    ensures l.Stdout?
    ensures display == PathDisplay ==> l.shown == PathText(m)
    ensures display == All ==> l.shown.Joined? && PathText(m) in l.shown.parts
  {
    if display == PathDisplay then Stdout(PathText(m)) else Stdout(DisplayDuration(d, display, Some(m)).value)
  }

  /** Number of leading successful results: where the first failure is, or all of them. */
  function OkPrefix(results: seq<Outcome>): (k: nat)
    ensures k <= |results|
    ensures forall j :: 0 <= j < k ==> results[j].Ok?
    ensures k < |results| ==> results[k].Err?
  {
    if results == [] || results[0].Err? then 0 else 1 + OkPrefix(results[1..])
  }

  /** The durations of a sequence of results (a failed one reads as 0; only leading successes are used). */
  function Durations(results: seq<Outcome>): (ds: seq<Ms>)
    ensures |ds| == |results|
  {
    seq(|results|, j requires 0 <= j < |results| => if results[j].Ok? then results[j].ms else IntMs(0))
  }

  /** One line per file, in input order. */
  function PerFileLines(media: seq<MediaPath>, ds: seq<Ms>, display: Display): (ls: seq<Line>)
    requires |ds| <= |media|
    ensures |ls| == |ds|
  {
    seq(|ds|, j requires 0 <= j < |ds| => PerFileLine(media[j], ds[j], display))
  }

  /** The results are those a generator produced before stopping: every one succeeded
      and there is one per file, or the last one is the first failure. */
  predicate Evaluated(results: seq<Outcome>, n: nat)
  {
    |results| <= n && (OkPrefix(results) == |results| ==> |results| == n)
    && (OkPrefix(results) < |results| ==> OkPrefix(results) == |results| - 1)
  }

  /** Without `--operation`: the durations are pulled one at a time, so each file's line is
      printed before the next is resolved and a failure stops the run after the lines before it. */
  function Lazy(media: seq<MediaPath>, results: seq<Outcome>, display: Display): (t: Transcript)
    requires |results| <= |media|
    ensures |t.lines| == OkPrefix(results)
    ensures t.exit == Finished <==> OkPrefix(results) == |results|
    ensures t.exit != Finished ==> t.exit == Raised(Resolution(results[OkPrefix(results)].error))
  {
    var k := OkPrefix(results);
    Transcript(PerFileLines(media, Durations(results)[..k], display),
               if k < |results| then Raised(Resolution(results[k].error)) else Finished)
  }

  /** The lazy run prints, in input order, the line of each file resolved before the first failure. */
  lemma LazyPrintsInOrder(media: seq<MediaPath>, results: seq<Outcome>, display: Display)
    requires |results| <= |media|
    ensures var t := Lazy(media, results, display);
      forall j :: 0 <= j < |t.lines| ==> t.lines[j] == PerFileLine(media[j], results[j].ms, display)
  {
  }

  /** With `--operation`: `list(durations_gen)` resolves every file before anything is printed. */
  function Eager(media: seq<MediaPath>, results: seq<Outcome>, op: Operation, display: Display): (t: Transcript)
    requires |results| == |media| > 0 || OkPrefix(results) < |results| <= |media|
    ensures |t.lines| <= 1
    ensures OkPrefix(results) < |results| <==> t.lines == [] && t.exit.Raised? && t.exit.failure.Resolution?
    ensures OkPrefix(results) < |results| ==> t.exit == Raised(Resolution(results[OkPrefix(results)].error))
  {
    var k := OkPrefix(results);
    if k < |results| then Transcript([], Raised(Resolution(results[k].error)))
    else Report(media, Durations(results), op, display)
  }

  /** When the file at index `k` fails, the lazy loop has printed exactly the `k` lines before it,
      the eager one nothing; both end with that file's error. */
  lemma LazyVersusEager(media: seq<MediaPath>, results: seq<Outcome>, op: Operation, display: Display, k: nat)
    requires Evaluated(results, |media|)
    requires k < |results| && results[k].Err? && forall j :: 0 <= j < k ==> results[j].Ok?
    ensures |Lazy(media, results, display).lines| == k
    ensures forall j :: 0 <= j < k ==> Lazy(media, results, display).lines[j] == PerFileLine(media[j], results[j].ms, display)
    ensures Eager(media, results, op, display).lines == []
    ensures Lazy(media, results, display).exit == Eager(media, results, op, display).exit == Raised(Resolution(results[k].error))
  {
    assert OkPrefix(results) == k;
  }

  /**
   * What `cached_duration` returns and leaves behind. When the entry is absent or stale: the
   * resolver's result and backend runs, with the old entry gone and, on success, `str` of the
   * duration written under a fresh timestamp and its directories created. Otherwise: the
   * entry's value or the missing media file's error, with nothing changed and no backend run.
   */
  predicate CachedResult(files0: map<Path, FileEntry>, dirs0: set<Path>, clock0: int, calls0: seq<Lib>,
                         files: map<Path, FileEntry>, dirs: set<Path>, clock: int, calls: seq<Lib>,
                         mf: MediaFile, lib: Lib, facts: MediaFacts, r: Outcome)
  {
    if Resolves(files0, mf) then
      && r == ParseDuration(lib, facts) && calls == calls0 + Invoked(lib, facts)
      && (r.Ok? ==>
            && files == (files0 - {mf.cacheFile})[mf.cacheFile := FileEntry(MsText(r.ms), clock0)]
            && dirs == DirsAfterWrite(files0 - {mf.cacheFile}, dirs0, mf.cacheFile)
            && clock == clock0 + 1)
      && (r.Err? ==> files == files0 - {mf.cacheFile} && dirs == dirs0 && clock == clock0)
    else
      files == files0 && dirs == dirs0 && clock == clock0 && calls == calls0
      && r == (if mf.absPath in files0 then ReadCached(files0[mf.cacheFile].content) else Err(MediaNotFound))
  }

  /** The durations of the files, the way the generator in `main` computes each one. */
  method Resolve(host: Host, mf: MediaFile, lib: Lib, cache: bool, facts: MediaFacts) returns (r: Outcome)
    requires host.Valid()
    modifies host
    ensures host.Valid()
    ensures !cache ==> r == ParseDuration(lib, facts)
    ensures !cache ==> (host.files == old(host.files) && host.dirs == old(host.dirs)
      && host.clock == old(host.clock) && host.calls == old(host.calls) + Invoked(lib, facts))
    ensures cache ==> CachedResult(old(host.files), old(host.dirs), old(host.clock), old(host.calls),
                                   host.files, host.dirs, host.clock, host.calls, mf, lib, facts, r)
  {
    if cache {
      ghost var depth;
      r, depth := host.CachedDuration(mf, lib, facts);
    } else {
      r := host.ParseDuration(lib, facts);
    }
  }

  /** The paths `main` works on: the lines of standard input for a single `-`, else the arguments. */
  function MediaList(args: seq<MediaPath>, stdin: seq<MediaPath>): (media: seq<MediaPath>)
    ensures media == args || media == stdin
    ensures media == stdin <== |args| == 1 && IsDash(args[0])
    ensures |args| != 1 || !IsDash(args[0]) ==> media == args
  {
    if |args| == 1 && IsDash(args[0]) then stdin else args
  }

  /** Index of the first path that does not exist, or `|paths|`. */
  function FirstMissing(cwd: Path, existing: set<Path>, paths: seq<MediaPath>): (i: nat)
    ensures i <= |paths|
    ensures forall j :: 0 <= j < i ==> Absolute(cwd, paths[j]) in existing
    ensures i < |paths| ==> Absolute(cwd, paths[i]) !in existing
  {
    if paths == [] || Absolute(cwd, paths[0]) !in existing then 0
    else 1 + FirstMissing(cwd, existing, paths[1..])
  }

  /** The resolver's answers for each file in turn: what `--no-cache` prints, file by file. */
  function ResolveAll(lib: Lib, facts: seq<MediaFacts>): (rs: seq<Outcome>)
    ensures |rs| == |facts|
  {
    if facts == [] then [] else ResolveAll(lib, facts[..|facts| - 1]) + [ParseDuration(lib, facts[|facts| - 1])]
  }

  /** With `--no-cache`, the results so far are the resolver's answers for the first files. */
  predicate Uncached(results: seq<Outcome>, lib: Lib, facts: seq<MediaFacts>)
  {
    |results| <= |facts| && results == ResolveAll(lib, facts[..|results|])
  }

  /** Each answer is the resolver's for its own file. */
  lemma {:induction false} ResolveAllAt(lib: Lib, facts: seq<MediaFacts>, j: int)
    requires 0 <= j < |facts|
    ensures ResolveAll(lib, facts)[j] == ParseDuration(lib, facts[j])
  {
    var k := |facts| - 1;
    if j < k {
      ResolveAllAt(lib, facts[..k], j);
    }
  }

  /** Each uncached result is the resolver's answer for its own file. */
  lemma UncachedAt(results: seq<Outcome>, lib: Lib, facts: seq<MediaFacts>, j: int)
    requires Uncached(results, lib, facts) && 0 <= j < |results|
    ensures results[j] == ParseDuration(lib, facts[j])
  {
    ResolveAllAt(lib, facts[..|results|], j);
  }

  lemma UncachedAppend(results: seq<Outcome>, lib: Lib, facts: seq<MediaFacts>, d: Outcome)
    requires Uncached(results, lib, facts) && |results| < |facts|
    requires d == ParseDuration(lib, facts[|results|])
    ensures Uncached(results + [d], lib, facts)
  {
    var k := |results|;
    assert facts[..k + 1][..k] == facts[..k];
  }

  /** The backends run for each file in turn when nothing is cached: one or two per file. */
  function InvokedAll(lib: Lib, facts: seq<MediaFacts>): (calls: seq<Lib>)
    ensures |facts| <= |calls| <= 2 * |facts|
  {
    if facts == [] then [] else InvokedAll(lib, facts[..|facts| - 1]) + Invoked(lib, facts[|facts| - 1])
  }

  /** With `--lib ffprobe` and no cache, the probe runs once per file and the library never runs. */
  lemma {:induction false} InvokedAllProbeOnly(facts: seq<MediaFacts>)
    ensures |InvokedAll(Ffprobe, facts)| == |facts|
    ensures forall j :: 0 <= j < |facts| ==> InvokedAll(Ffprobe, facts)[j] == Ffprobe
  {
    if facts != [] {
      InvokedAllProbeOnly(facts[..|facts| - 1]);
    }
  }

  /** `--no-cache` leaves the filesystem and the clock alone: the only trace of resolving the
      files is the backend runs for each of them, in order. */
  predicate Bypassed(files0: map<Path, FileEntry>, dirs0: set<Path>, clock0: int, calls0: seq<Lib>,
                     files: map<Path, FileEntry>, dirs: set<Path>, clock: int, calls: seq<Lib>,
                     lib: Lib, facts: seq<MediaFacts>)
  {
    files == files0 && dirs == dirs0 && clock == clock0 && calls == calls0 + InvokedAll(lib, facts)
  }

  /** Resolving one more file without the cache adds only that file's backend runs. */
  lemma BypassedAppend(files0: map<Path, FileEntry>, dirs0: set<Path>, clock0: int, calls0: seq<Lib>,
                       files: map<Path, FileEntry>, dirs: set<Path>, clock: int, calls: seq<Lib>, calls1: seq<Lib>,
                       lib: Lib, facts: seq<MediaFacts>, k: int)
    requires 0 <= k < |facts|
    requires Bypassed(files0, dirs0, clock0, calls0, files, dirs, clock, calls, lib, facts[..k])
    requires calls1 == calls + Invoked(lib, facts[k])
    ensures Bypassed(files0, dirs0, clock0, calls0, files, dirs, clock, calls1, lib, facts[..k + 1])
  {
    assert facts[..k + 1][..k] == facts[..k];
  }

  /** What the backends report about each file of `media`, looked up by its absolute path. */
  function FactsOf(facts: Path -> MediaFacts, cwd: Path, media: seq<MediaPath>): seq<MediaFacts>
  {
    seq(|media|, j requires 0 <= j < |media| => facts(Absolute(cwd, media[j])))
  }

  /**
   * The start of `main`: for a single `-`, the paths on standard input,
   * each of which must exist (`missing` is the first that does not, which
   * becomes a `BadParameter`); otherwise the arguments as given.
   */
  method ReadMedia(host: Host, args: seq<MediaPath>, stdin: seq<MediaPath>, cwd: Path)
    returns (media: seq<MediaPath>, missing: Option<MediaPath>)
    ensures media == MediaList(args, stdin)
    ensures var existing := host.files.Keys + host.dirs;
      var i := FirstMissing(cwd, existing, stdin);
      missing == if |args| == 1 && IsDash(args[0]) && i < |stdin| then Some(stdin[i]) else None
  {
    media, missing := args, None;
    if |args| == 1 && IsDash(args[0]) {
      media := stdin;
      ghost var existing := host.files.Keys + host.dirs;
      var i := 0;
      while i < |stdin|
        invariant 0 <= i <= |stdin|
        invariant forall j :: 0 <= j < i ==> Absolute(cwd, stdin[j]) in existing
      {
        if !host.Exists(Absolute(cwd, stdin[i])) {
          assert FirstMissing(cwd, existing, stdin) == i by {
            var m := FirstMissing(cwd, existing, stdin);
            assert m <= i;
          }
          return media, Some(stdin[i]);
        }
        i := i + 1;
      }
    }
  }

  /**
   * The rest of `main` for a non-empty list: the generator of durations is
   * consumed one file at a time without `--operation` (printing as it
   * goes) and all at once with it. `facts[j]` is what the backends report
   * about `media[j]`.
   */
  method Process(host: Host, media: seq<MediaPath>, facts: seq<MediaFacts>, cwd: Path, cacheDir: Path,
                 lib: Lib, cache: bool, op: Option<Operation>, display: Display)
    returns (t: Transcript, ghost results: seq<Outcome>)
    requires host.Valid() && |media| > 0 && |facts| == |media|
    modifies host
    ensures host.Valid()
    ensures Evaluated(results, |media|)
    ensures op.None? ==> t == Lazy(media, results, display)
    ensures op.Some? ==> t == Eager(media, results, op.value, display)
    ensures !cache ==> Uncached(results, lib, facts)
    ensures !cache ==> Bypassed(old(host.files), old(host.dirs), old(host.clock), old(host.calls),
                                host.files, host.dirs, host.clock, host.calls, lib, facts[..|results|])
  {
    var lines, ds, failure;
    lines, ds, failure, results := Generate(host, media, facts, cwd, cacheDir, lib, cache, op.None?, display);
    if failure.Some? {
      return Transcript(if op.None? then lines else [], Raised(Resolution(failure.value))), results;
    }
    assert Durations(results)[..|results|] == Durations(results);
    if op.None? {
      return Transcript(lines, Finished), results;
    }
    return Report(media, ds, op.value, display), results;
  }

  /**
   * Consumes the generator of durations in `main`, one file at a time, and
   * stops at the first failure. With `emit` (no `--operation`) each file's
   * line is printed as soon as its duration is known.
   */
  method Generate(host: Host, media: seq<MediaPath>, facts: seq<MediaFacts>, cwd: Path, cacheDir: Path,
                  lib: Lib, cache: bool, emit: bool, display: Display)
    returns (lines: seq<Line>, ds: seq<Ms>, failure: Option<Error>, ghost results: seq<Outcome>)
    requires host.Valid() && |facts| == |media|
    modifies host
    ensures host.Valid()
    ensures Evaluated(results, |media|)
    ensures |ds| == OkPrefix(results) && ds == Durations(results)[..|ds|]
    ensures failure.Some? <==> |ds| < |results|
    ensures failure.Some? ==> failure.value == results[|ds|].error
    ensures emit ==> lines == PerFileLines(media, ds, display)
    ensures !cache ==> Uncached(results, lib, facts)
    ensures !cache ==> Bypassed(old(host.files), old(host.dirs), old(host.clock), old(host.calls),
                                host.files, host.dirs, host.clock, host.calls, lib, facts[..|results|])
  {
    results, lines, ds, failure := [], [], [], None;
    var i := 0;
    while i < |media|
      invariant 0 <= i <= |media| && |results| == i
      invariant host.Valid()
      invariant OkPrefix(results) == i && ds == Durations(results)
      invariant emit ==> lines == PerFileLines(media, ds, display)
      invariant !cache ==> Uncached(results, lib, facts)
      invariant !cache ==> Bypassed(old(host.files), old(host.dirs), old(host.clock), old(host.calls),
                                    host.files, host.dirs, host.clock, host.calls, lib, facts[..i])
    {
      ghost var calls := host.calls;
      var d := Resolve(host, NewMediaFile(cwd, cacheDir, media[i]), lib, cache, facts[i]);
      OkPrefixAppend(results, d);
      DurationsAppend(results, d);
      if !cache {
        UncachedAppend(results, lib, facts, d);
        BypassedAppend(old(host.files), old(host.dirs), old(host.clock), old(host.calls),
                       host.files, host.dirs, host.clock, calls, host.calls, lib, facts, i);
      }
      if d.Err? {
        results := results + [d];
        failure := Some(d.error);
        return;
      }
      if emit {
        PerFileLinesAppend(media, ds, d.ms, display);
        lines := lines + [PerFileLine(media[i], d.ms, display)];
      }
      results := results + [d];
      ds := ds + [d.ms];
      i := i + 1;
    }
    assert Durations(results)[..|ds|] == ds;
  }

  /** One more result adds its own duration and leaves the earlier ones. */
  lemma DurationsAppend(results: seq<Outcome>, d: Outcome)
    ensures Durations(results + [d]) == Durations(results) + [if d.Ok? then d.ms else IntMs(0)]
    ensures Durations(results + [d])[..|results|] == Durations(results)
  {
  }

  /** One more resolved file adds exactly its own line. */
  lemma PerFileLinesAppend(media: seq<MediaPath>, ds: seq<Ms>, d: Ms, display: Display)
    requires |ds| < |media|
    ensures PerFileLines(media, ds + [d], display) == PerFileLines(media, ds, display) + [PerFileLine(media[|ds|], d, display)]
  {
  }

  /**
   * `main`. `facts` says what the backends report about each absolute path;
   * `results` are the per-file outcomes in the order they were resolved.
   */
  method Run(host: Host, args: seq<MediaPath>, stdin: seq<MediaPath>, cwd: Path, cacheDir: Path,
             lib: Lib, cache: bool, op: Option<Operation>, display: Display, facts: Path -> MediaFacts)
    returns (t: Transcript, ghost results: seq<Outcome>)
    requires host.Valid()
    modifies host
    ensures host.Valid()
    ensures var media := MediaList(args, stdin);
      var i := FirstMissing(cwd, old(host.files).Keys + old(host.dirs), stdin);
      var untouched := host.files == old(host.files) && host.dirs == old(host.dirs)
        && host.clock == old(host.clock) && host.calls == old(host.calls);
      if |args| == 1 && IsDash(args[0]) && i < |stdin| then
        t == Transcript([], Raised(BadParameter(stdin[i]))) && results == [] && untouched
      else if media == [] then
        t == Transcript([Stderr("No media files specified")], Finished) && results == [] && untouched
      else
        && Evaluated(results, |media|)
        && (op.None? ==> t == Lazy(media, results, display))
        && (op.Some? ==> t == Eager(media, results, op.value, display))
        && (!cache ==> forall j :: 0 <= j < |results| ==>
              results[j] == ParseDuration(lib, facts(Absolute(cwd, media[j]))))
        && (!cache ==> Bypassed(old(host.files), old(host.dirs), old(host.clock), old(host.calls),
                                host.files, host.dirs, host.clock, host.calls, lib, FactsOf(facts, cwd, media)[..|results|]))
  {
    var media, missing := ReadMedia(host, args, stdin, cwd);
    if missing.Some? {
      return Transcript([], Raised(BadParameter(missing.value))), [];
    }
    if |media| == 0 {
      return Transcript([Stderr("No media files specified")], Finished), [];
    }
    var perFile := FactsOf(facts, cwd, media);
    t, results := Process(host, media, perFile, cwd, cacheDir, lib, cache, op, display);
    if !cache {
      forall j | 0 <= j < |results| ensures results[j] == ParseDuration(lib, facts(Absolute(cwd, media[j]))) {
        UncachedAt(results, lib, perFile, j);
      }
    }
  }

  lemma {:induction false} OkPrefixAppend(results: seq<Outcome>, d: Outcome)
    requires OkPrefix(results) == |results|
    ensures OkPrefix(results + [d]) == if d.Ok? then |results| + 1 else |results|
  {
    if results != [] {
      assert (results + [d])[1..] == results[1..] + [d];
      OkPrefixAppend(results[1..], d);
    } else {
      assert [] + [d] == [d];
    }
  }
}

=== FILE: paths.dfy ===
/**
 * Paths and the location of a media file's cache entry
 * (`MediaFile.__init__` in mlength/__init__.py).
 */
module Paths {

  /** An absolute path, written as its components after the filesystem root:
      `/home/u/a.mkv` is `["home", "u", "a.mkv"]` and the root itself is `[]`. */
  type Path = seq<string>

  /** A path as the user gave it: absolute, or relative to the working directory. */
  datatype MediaPath = MediaPath(absolute: bool, parts: seq<string>)

  /** `Path.absolute()`: a relative path is put under the working directory; `..` is not resolved. */
  function Absolute(cwd: Path, p: MediaPath): Path
  {
    if p.absolute then p.parts else cwd + p.parts
  }

  /** An absolute path is kept as it is; a relative one is the working directory followed by
      its own components. Either way the result ends with the path's components. */
  lemma AbsoluteKeepsParts(cwd: Path, p: MediaPath)
    ensures p.absolute ==> Absolute(cwd, p) == p.parts
    ensures !p.absolute ==> |Absolute(cwd, p)| == |cwd| + |p.parts| && Absolute(cwd, p)[..|cwd|] == cwd
    ensures var a := Absolute(cwd, p); |a| >= |p.parts| && a[|a| - |p.parts|..] == p.parts
  {
  }

  /** `str(p) == "-"`: the single argument that asks for paths on standard input. */
  predicate IsDash(p: MediaPath)
  {
    !p.absolute && p.parts == ["-"]
  }

  /**
   * `cache_dir / Path(*path.absolute().parts[1:])`: the absolute media path,
   * root dropped, re-rooted under the cache directory.
   */
  function CacheEntryPath(cacheDir: Path, abs: Path): (e: Path)
    ensures |e| == |cacheDir| + |abs|
    ensures e[..|cacheDir|] == cacheDir && e[|cacheDir|..] == abs
  {
    cacheDir + abs
  }

  /** Distinct absolute media paths never share a cache entry, and equal ones always do. */
  lemma CacheEntryInjective(cacheDir: Path, a: Path, b: Path)
    ensures CacheEntryPath(cacheDir, a) == CacheEntryPath(cacheDir, b) <==> a == b
  {
    if CacheEntryPath(cacheDir, a) == CacheEntryPath(cacheDir, b) {
      assert a == CacheEntryPath(cacheDir, a)[|cacheDir|..];
    }
  }

  /** The parent directory of a path; the root is its own parent. */
  function Parent(p: Path): (q: Path)
    ensures p != [] ==> |q| == |p| - 1 && q == p[..|p| - 1]
    ensures p == [] ==> q == []
  {
    if p == [] then [] else p[..|p| - 1]
  }

  /** A media file as `MediaFile` holds it: the path given, and where its cache entry lives. */
  datatype MediaFile = MediaFile(path: MediaPath, absPath: Path, cacheFile: Path)

  /** `MediaFile(path, cache_dir)`, with the working directory that `absolute()` reads made explicit. */
  function NewMediaFile(cwd: Path, cacheDir: Path, p: MediaPath): (mf: MediaFile)
    ensures mf.path == p && mf.absPath == Absolute(cwd, p)
    ensures mf.cacheFile == CacheEntryPath(cacheDir, mf.absPath)
  {
    var abs := Absolute(cwd, p);
    MediaFile(p, abs, CacheEntryPath(cacheDir, abs))
  }

  /** Two media paths that resolve to different files get different cache entries. */
  lemma {:induction false} DistinctFilesDistinctEntries(cwd: Path, cacheDir: Path, p: MediaPath, q: MediaPath)
    requires Absolute(cwd, p) != Absolute(cwd, q)
    ensures NewMediaFile(cwd, cacheDir, p).cacheFile != NewMediaFile(cwd, cacheDir, q).cacheFile
  {
    CacheEntryInjective(cacheDir, Absolute(cwd, p), Absolute(cwd, q));
  }
}

=== FILE: text.dfy ===
/**
 * The text conversions a cache entry goes through: `str()` of a duration
 * when it is written, `int()` when it is read back, and the `strip()` plus
 * `float()` that turn the probe tool's answer into milliseconds.
 */
module Text {
  import opened Wrappers

  predicate IsDigit(c: char) { '0' <= c <= '9' }

  predicate AllDigits(s: string) { forall i :: 0 <= i < |s| ==> IsDigit(s[i]) }

  /** The characters Python's `str.isspace` accepts, which `strip()` and `int()` discard. */
  predicate IsSpace(c: char)
  {
    var k := c as int;
    (9 <= k <= 13) || (28 <= k <= 32) || k == 0x85 || k == 0xA0 || k == 0x1680
    || (0x2000 <= k <= 0x200A) || k == 0x2028 || k == 0x2029 || k == 0x202F
    || k == 0x205F || k == 0x3000
  }

  predicate AllSpace(s: string) { forall i :: 0 <= i < |s| ==> IsSpace(s[i]) }

  function DigitChar(d: nat): (c: char)
    requires d < 10
    ensures IsDigit(c)
  {
    ('0' as int + d) as char
  }

  function DigitValue(c: char): (d: nat)
    requires IsDigit(c)
    ensures d < 10 && DigitChar(d) == c
  {
    c as int - '0' as int
  }

  /** `str(n)` for a non-negative integer: decimal digits without leading zeros. */
  function NatToString(n: nat): (s: string)
    ensures |s| > 0 && AllDigits(s)
    ensures |s| > 1 ==> s[0] != '0'
    decreases n
  {
    if n < 10 then [DigitChar(n)] else NatToString(n / 10) + [DigitChar(n % 10)]
  }

  /** `str(n)` for any integer. */
  function IntToString(n: int): (s: string)
    ensures |s| > 0
    ensures n < 0 <==> s[0] == '-'
  {
    if n < 0 then "-" + NatToString(-n) else NatToString(n)
  }

  /** The number a string of decimal digits denotes, read most significant first. */
  function DigitsValue(s: string): nat
    requires AllDigits(s)
  {
    if s == [] then 0 else DigitsValue(s[..|s| - 1]) * 10 + DigitValue(s[|s| - 1])
  }

  /** Reading back the digits `str` wrote gives the number. */
  lemma {:induction false} DigitsValueOfNat(n: nat)
    ensures DigitsValue(NatToString(n)) == n
    decreases n
  {
    if n >= 10 {
      var s := NatToString(n / 10) + [DigitChar(n % 10)];
      assert s[..|s| - 1] == NatToString(n / 10);
      DigitsValueOfNat(n / 10);
    }
  }

  /** `s` with leading whitespace removed. */
  function TrimStart(s: string): (r: string)
    ensures |r| <= |s|
    ensures r == [] || !IsSpace(r[0])
  {
    if s != [] && IsSpace(s[0]) then TrimStart(s[1..]) else s
  }

  /** `s` with trailing whitespace removed. */
  function TrimEnd(s: string): (r: string)
    ensures |r| <= |s|
    ensures r == [] || !IsSpace(r[|r| - 1])
  {
    if s != [] && IsSpace(s[|s| - 1]) then TrimEnd(s[..|s| - 1]) else s
  }

  /** What `TrimStart` removes is a run of whitespace at the front, and it keeps the rest. */
  lemma {:induction false} TrimStartDropsSpaces(s: string)
    ensures var r := TrimStart(s);
      r == s[|s| - |r|..] && forall i :: 0 <= i < |s| - |r| ==> IsSpace(s[i])
  {
    if s != [] && IsSpace(s[0]) {
      TrimStartDropsSpaces(s[1..]);
      var r := TrimStart(s);
      forall i | 1 <= i < |s| - |r| ensures IsSpace(s[i]) {
        assert s[i] == s[1..][i - 1];
      }
    }
  }

  /** What `TrimEnd` removes is a run of whitespace at the back, and it keeps the rest. */
  lemma {:induction false} TrimEndDropsSpaces(s: string)
    ensures var r := TrimEnd(s);
      r == s[..|r|] && forall i :: |r| <= i < |s| ==> IsSpace(s[i])
  {
    if s != [] && IsSpace(s[|s| - 1]) {
      TrimEndDropsSpaces(s[..|s| - 1]);
      var r := TrimEnd(s);
      forall i | |r| <= i < |s| - 1 ensures IsSpace(s[i]) {
        assert s[i] == s[..|s| - 1][i];
      }
    }
  }

  /** Python's `s.strip()`. */
  function Strip(s: string): string
  {
    TrimEnd(TrimStart(s))
  }

  /** `r` sits at offset `k` of `s`, with only whitespace before and after it. */
  predicate SpacesAround(s: string, k: int, r: string)
  {
    0 <= k <= |s| - |r| && r == s[k..k + |r|]
    && (forall i :: 0 <= i < k ==> IsSpace(s[i]))
    && (forall i :: k + |r| <= i < |s| ==> IsSpace(s[i]))
  }

  /**
   * `strip()` keeps a contiguous part of `s` that neither starts nor ends
   * with whitespace, drops only whitespace around it, and gives the empty
   * string exactly when `s` is all whitespace.
   */
  lemma StripSpec(s: string)
    ensures var r := Strip(s);
      r == [] || (!IsSpace(r[0]) && !IsSpace(r[|r| - 1]))
    ensures exists k :: SpacesAround(s, k, Strip(s))
    ensures Strip(s) == [] <==> AllSpace(s)
  {
    var t := TrimStart(s);
    var r := Strip(s);
    var k := |s| - |t|;
    TrimStartDropsSpaces(s);
    TrimEndDropsSpaces(t);
    assert r == s[k..k + |r|];
    forall i | k + |r| <= i < |s| ensures IsSpace(s[i]) {
      assert s[i] == t[i - k];
    }
    assert SpacesAround(s, k, r);
    if r == [] {
      assert forall i :: 0 <= i < |s| ==> IsSpace(s[i]);
    } else {
      assert !IsSpace(s[k]);
    }
  }

  /** A string that neither starts nor ends with whitespace is left as it is by `strip()`. */
  lemma StripUntouched(s: string)
    requires s != [] && !IsSpace(s[0]) && !IsSpace(s[|s| - 1])
    ensures Strip(s) == s
  {
    assert TrimStart(s) == s;
  }

  /** Trailing whitespace after text that starts and ends with non-whitespace is what `strip()` removes. */
  lemma {:induction false} StripTrailing(s: string, w: string)
    requires s != [] && !IsSpace(s[0]) && !IsSpace(s[|s| - 1])
    requires AllSpace(w)
    ensures Strip(s + w) == s
  {
    assert TrimStart(s + w) == s + w by { assert (s + w)[0] == s[0]; }
    if w == [] {
      assert s + w == s;
    } else {
      assert (s + w)[..|s + w| - 1] == s + w[..|w| - 1];
      StripTrailing(s, w[..|w| - 1]);
      assert TrimStart(s + w[..|w| - 1]) == s + w[..|w| - 1] by {
        assert (s + w[..|w| - 1])[0] == s[0];
      }
    }
  }

  /**
   * Python's `int(s)` on a string: surrounding whitespace, an optional
   * sign, then one or more decimal digits; anything else is a `ValueError`
   * (`None` here).
   */
  function ParseInt(s: string): Option<int>
  {
    var t := Strip(s);
    if |t| > 0 && (t[0] == '-' || t[0] == '+') then
      var body := t[1..];
      if |body| > 0 && AllDigits(body) then
        var v: int := DigitsValue(body);
        Some(if t[0] == '-' then -v else v)
      else None
    else if |t| > 0 && AllDigits(t) then Some(DigitsValue(t))
    else None
  }

  /**
   * `int()` accepts exactly a stripped text that is a non-empty run of
   * digits, possibly after one sign; blank text is refused, and an unsigned
   * run of digits is read as the non-negative number it denotes.
   */
  lemma ParseIntSpec(s: string)
    ensures AllSpace(s) ==> ParseInt(s) == None
    ensures ParseInt(s).Some? <==> var t := Strip(s);
      t != [] && (AllDigits(t) || ((t[0] == '-' || t[0] == '+') && |t| > 1 && AllDigits(t[1..])))
    ensures var t := Strip(s);
      t != [] && AllDigits(t) ==> ParseInt(s) == Some(DigitsValue(t))
  {
    StripSpec(s);
    var t := Strip(s);
    if t != [] && (t[0] == '-' || t[0] == '+') {
      assert !IsDigit(t[0]);
    }
  }

  /** Round trip: `int(str(n)) == n` for every integer. */
  lemma {:induction false} ParseIntOfIntToString(n: int)
    ensures ParseInt(IntToString(n)) == Some(n)
  {
    var s := IntToString(n);
    var m: nat := if n < 0 then -n else n;
    var digits := NatToString(m);
    assert s == (if n < 0 then "-" else "") + digits;
    assert !IsSpace(s[|s| - 1]) by { assert s[|s| - 1] == digits[|digits| - 1]; }
    StripUntouched(s);
    DigitsValueOfNat(m);
    if n < 0 {
      assert s[1..] == digits;
    } else {
      assert s == digits && !(s[0] == '-' || s[0] == '+');
    }
  }

  /**
   * `str(x)` of a float, reduced to the shape every finite float printed in
   * fixed notation has: sign, integer part, a point, fractional digits.
   * Only the first fractional digit is kept.
   */
  function FloatText(x: real): (s: string)
    ensures |s| >= 3 && s[|s| - 2] == '.' && IsDigit(s[|s| - 1])
    ensures s[0] == '-' || IsDigit(s[0])
  {
    var a := if x < 0.0 then -x else x;
    var whole: nat := a.Floor;
    var tenth := ((a - whole as real) * 10.0).Floor;
    assert 0 <= tenth < 10;
    var digits := NatToString(whole);
    (if x < 0.0 then "-" else "") + digits + "." + [DigitChar(tenth)]
  }

  /** `int(str(x))` fails for every float, even an integral one such as `1234.0`. */
  lemma ParseIntOfFloatText(x: real)
    ensures ParseInt(FloatText(x)) == None
  {
    var s := FloatText(x);
    StripUntouched(s);
    assert !IsDigit(s[|s| - 2]);
    if s[0] == '-' {
      assert !IsDigit(s[1..][|s| - 3]);
    }
  }

  function Pow10(n: nat): (p: nat)
    ensures p >= 1
  {
    if n == 0 then 1 else 10 * Pow10(n - 1)
  }

  /**
   * `int(float(t) * 1000)` for a seconds value written in plain decimal
   * notation: an optional sign, then digits with at most one point and at
   * least one digit. The product is truncated toward zero, which for an
   * exact decimal keeps the whole seconds and the first three fractional
   * digits. Text that is not such a number is a `ValueError` (`None`).
   */
  function SecondsToMs(t: string): (r: Option<int>)
    ensures r.Some? ==> t != []
  {
    var neg := |t| > 0 && t[0] == '-';
    var u := if |t| > 0 && (t[0] == '-' || t[0] == '+') then t[1..] else t;
    match ScanWhole(u, 0, false)
    case None => None
    case Some(ms) =>
      var v: int := ms;
      Some(if neg then -v else v)
  }

  /**
   * The digits before the point: `whole` is the number read so far and
   * `seen` whether any digit has been read. The value is in milliseconds.
   */
  function ScanWhole(u: string, whole: nat, seen: bool): (r: Option<nat>)
    ensures r.Some? ==> seen || u != []
  {
    if u == [] then (if seen then Some(whole * 1000) else None)
    else if u[0] == '.' then ScanFrac(u[1..], whole * 1000, 100, seen)
    else if IsDigit(u[0]) then ScanWhole(u[1..], whole * 10 + DigitValue(u[0]), true)
    else None
  }

  /**
   * The digits after the point: `ms` so far, and `scale` the milliseconds
   * the next digit is worth (100, 10, 1, then 0 for every digit after the
   * third, which the truncation drops).
   */
  function ScanFrac(u: string, ms: nat, scale: nat, seen: bool): (r: Option<nat>)
    ensures r.Some? ==> seen || u != []
  {
    if u == [] then (if seen then Some(ms) else None)
    else if IsDigit(u[0]) then ScanFrac(u[1..], ms + scale * DigitValue(u[0]), scale / 10, true)
    else None
  }

  /** Reading a run of digits before the point accumulates their value. */
  lemma {:induction false} ScanWholeDigits(s: string, rest: string, whole: nat, seen: bool)
    requires AllDigits(s)
    ensures ScanWhole(s + rest, whole, seen)
      == ScanWhole(rest, whole * Pow10(|s|) + DigitsValue(s), seen || s != [])
    decreases |s|
  {
    if s == [] {
      assert s + rest == rest;
    } else {
      var p := s[..|s| - 1];
      var c := s[|s| - 1];
      assert s + rest == p + ([c] + rest);
      ScanWholeDigits(p, [c] + rest, whole, seen);
      var w := whole * Pow10(|p|) + DigitsValue(p);
      assert ScanWhole([c] + rest, w, seen || p != []) == ScanWhole(rest, w * 10 + DigitValue(c), true) by {
        assert ([c] + rest)[0] == c && ([c] + rest)[1..] == rest;
      }
      assert DigitsValue(s) == DigitsValue(p) * 10 + DigitValue(c);
      ShiftDigit(whole, Pow10(|p|), DigitsValue(p), DigitValue(c));
    }
  }

  lemma ShiftDigit(whole: nat, p: nat, v: nat, d: nat)
    ensures (whole * p + v) * 10 + d == whole * (10 * p) + (v * 10 + d)
  {
  }

  /** Past the third fractional digit, further digits add nothing. */
  lemma {:induction false} ScanFracPastThird(u: string, ms: nat)
    requires AllDigits(u)
    ensures ScanFrac(u, ms, 0, true) == Some(ms)
    decreases |u|
  {
    if u != [] {
      ScanFracPastThird(u[1..], ms);
    }
  }

  /** A whole number of seconds converts to exactly that many thousand milliseconds. */
  lemma SecondsToMsWhole(n: nat)
    ensures SecondsToMs(NatToString(n)) == Some(n * 1000)
  {
    var s := NatToString(n);
    assert IsDigit(s[0]);
    ScanWholeDigits(s, [], 0, false);
    assert s + [] == s;
    DigitsValueOfNat(n);
  }

  /**
   * Digits after the third fractional one are cut off, never rounded:
   * `n.d1d2d3...` seconds is `n * 1000 + d1d2d3` milliseconds.
   */
  lemma SecondsToMsTruncates(n: nat, frac: string)
    requires AllDigits(frac) && |frac| >= 3
    ensures SecondsToMs(NatToString(n) + "." + frac) == Some(n * 1000 + DigitsValue(frac[..3]))
  {
    var s := NatToString(n);
    var t := s + "." + frac;
    assert t[0] == s[0] && IsDigit(t[0]);
    assert t == s + ("." + frac);
    ScanWholeDigits(s, "." + frac, 0, false);
    DigitsValueOfNat(n);
    assert ("." + frac)[1..] == frac;
    assert ScanWhole(t, 0, false) == ScanFrac(frac, n * 1000, 100, true);
    var d0, d1, d2 := DigitValue(frac[0]), DigitValue(frac[1]), DigitValue(frac[2]);
    var m := n * 1000;
    assert ScanFrac(frac, m, 100, true) == ScanFrac(frac[1..], m + 100 * d0, 10, true);
    assert frac[1..][0] == frac[1] && frac[1..][1..] == frac[2..];
    assert ScanFrac(frac[1..], m + 100 * d0, 10, true) == ScanFrac(frac[2..], m + 100 * d0 + 10 * d1, 1, true);
    assert frac[2..][0] == frac[2] && frac[2..][1..] == frac[3..];
    assert ScanFrac(frac[2..], m + 100 * d0 + 10 * d1, 1, true)
      == ScanFrac(frac[3..], m + 100 * d0 + 10 * d1 + d2, 0, true);
    ScanFracPastThird(frac[3..], n * 1000 + 100 * d0 + 10 * d1 + d2);
    ThreeDigitsValue(frac[..3]);
  }

  /**
   * A leading `-` negates the value and a leading `+` changes nothing; an
   * unsigned number of seconds never converts to a negative count.
   */
  lemma SecondsToMsSigned(t: string)
    requires t != [] && t[0] != '-' && t[0] != '+'
    ensures SecondsToMs(t).Some? ==> SecondsToMs(t).value >= 0
    ensures SecondsToMs("-" + t) == if SecondsToMs(t).Some? then Some(-SecondsToMs(t).value) else None
    ensures SecondsToMs("+" + t) == SecondsToMs(t)
  {
    assert ("-" + t)[1..] == t && ("+" + t)[1..] == t;
  }

  /** The conversion refuses every text with no digit at all, such as the empty string, a lone
      sign or point, or `N/A`. */
  lemma SecondsToMsNeedsADigit(t: string)
    ensures (forall i :: 0 <= i < |t| ==> !IsDigit(t[i])) ==> SecondsToMs(t) == None
    ensures SecondsToMs("") == None && SecondsToMs("-") == None && SecondsToMs("+") == None
    ensures SecondsToMs(".") == None && SecondsToMs("N/A") == None
  {
    assert "-"[1..] == [] && "+"[1..] == [];
    assert ScanWhole(".", 0, false) == ScanFrac([], 0, 100, false);
    assert !IsDigit('N');
    if forall i :: 0 <= i < |t| ==> !IsDigit(t[i]) {
      var u := if |t| > 0 && (t[0] == '-' || t[0] == '+') then t[1..] else t;
      assert forall i :: 0 <= i < |u| ==> !IsDigit(u[i]) by {
        if u != t {
          forall i | 0 <= i < |u| ensures !IsDigit(u[i]) { assert u[i] == t[i + 1]; }
        }
      }
      if u != [] && u[0] == '.' && u[1..] != [] {
        assert u[1..][0] == u[1];
      }
    }
  }

  /** With one or two fractional digits, they count as tenths and hundredths of a second:
      `n.d` seconds is `n * 1000 + 100 * d` milliseconds and `n.de` is `n * 1000 + 100 * d + 10 * e`. */
  lemma SecondsToMsShortFraction(n: nat, frac: string)
    requires AllDigits(frac) && 1 <= |frac| <= 2
    ensures SecondsToMs(NatToString(n) + "." + frac)
      == Some(n * 1000 + 100 * DigitValue(frac[0]) + (if |frac| == 2 then 10 * DigitValue(frac[1]) else 0))
  {
    var s := NatToString(n);
    var t := s + "." + frac;
    assert t[0] == s[0] && IsDigit(t[0]);
    assert t == s + ("." + frac);
    ScanWholeDigits(s, "." + frac, 0, false);
    DigitsValueOfNat(n);
    assert ("." + frac)[1..] == frac;
    assert ScanWhole(t, 0, false) == ScanFrac(frac, n * 1000, 100, true);
    var m := n * 1000 + 100 * DigitValue(frac[0]);
    assert ScanFrac(frac, n * 1000, 100, true) == ScanFrac(frac[1..], m, 10, true);
    if |frac| == 2 {
      assert frac[1..][0] == frac[1] && frac[1..][1..] == [];
      assert ScanFrac(frac[1..], m, 10, true) == ScanFrac([], m + 10 * DigitValue(frac[1]), 1, true);
    }
  }

  lemma ThreeDigitsValue(x: string)
    requires |x| == 3 && AllDigits(x)
    ensures DigitsValue(x) == 100 * DigitValue(x[0]) + 10 * DigitValue(x[1]) + DigitValue(x[2])
  {
    assert x[..2][..1] == x[..1] && x[..1][..0] == [];
    assert DigitsValue(x[..1]) == DigitValue(x[0]);
  }
}

=== FILE: wrappers.dfy ===
/** The optional-value datatype used across the model. */
module Wrappers {

  datatype Option<+T> = None | Some(value: T)
}
